=== FILE: README.md ===
# Voice-call speech pipeline: a Dafny model

This project models the decision logic inside the voice-call bot's three
services:

- **SpeechService**
  - builds the SSML document with the three-level voice fallback and exact
    escaping of the five XML special characters;
  - normalises audio chunks before writing them to the push stream;
  - runs the resource lifecycle of recognizer, push stream and synthesizer
    across stopping, speaking and `dispose`;
  - derives its configuration from the environment.
- **CallHandlerService**
  - triages a call notification into the effects it causes: a token request,
    an answer, speech service construction, file transcription and the
    transcription callback;
  - builds the token and answer requests;
  - gates transcripts before they reach the callback.
- **AzureAIFoundryService**: posts the user's message, polls the run and
  picks the assistant's reply.

Every SDK, HTTP, timer and file-system step is an explicit parameter:
- asynchronous SDK callbacks are input events;
- collaborator calls are outcome values;
- effects are returned as traces.
SDK objects are opaque handles drawn from a counter. Every `close()` call is
logged, so "closed exactly once" and "never closed twice" can be stated.

Modules:
- `Wrappers`: the `Option`/`Result`/`Outcome` types.
- `JsText`: JavaScript truthiness, template rendering of missing values, and `trim`.
- `Ssml`: `generateSSML`.
- `AudioChunks`: chunk normalisation.
- `SpeechSetup`: `initializeSpeechConfig`.
- `SpeechService`: the resource state machine.
- `CallHandler`: `CallHandlerService`.
- `AgentRuns`: `processUserMessage`.

Behaviour of the code worth noting, which the model reproduces:
- An incoming notification whose change type is not "created" is not
  ignored outright. A token is fetched for it first; the answer, the
  speech-service construction, the file transcription and the callback are
  skipped.
- `textToSpeech` does not reject whitespace-only text. Only falsy text is
  rejected.
- A typed-array chunk writes its whole underlying ArrayBuffer, not only the
  view's window.
- If `speakSsmlAsync` throws synchronously, the synthesizer is never closed.
- `SpeechService` keeps no explicit session state. Its state is the record
  `isRecognizing`, `recognizer`, `pushStream`, `synthesizer`, `speechConfig`.
- No method of `SpeechService` sets `isRecognizing` to true or stores a stream in `pushStream`, so every
  lemma about the state machine takes an arbitrary state that satisfies the
  resource invariant `SpeechService.Wf`.

## Model

| member | source | states |
|---|---|---|
| Ssml.EscapeIsWellEscaped | speechService.js:204-210 | the escaped text has no raw `<`, `>`, `"` or `'`, and every `&` in it begins one of `&lt;` `&gt;` `&amp;` `&quot;` `&apos;` |
| Ssml.EscapePlain | speechService.js:204-210 | text containing none of the five characters is returned unchanged |
| Ssml.EscapeAppend | speechService.js:204-210 | escaping works per character, so it distributes over concatenation |
| Ssml.UnescapeEscape | speechService.js:204-210 | decoding the five entities recovers the original text, so no information is lost |
| Ssml.EscapeUnescape | speechService.js:204-210 | every well-escaped string is the escape of its decoding, so escaping is a bijection onto well-escaped strings |
| Ssml.SelectVoice | speechService.js:203 | the voice is the argument if truthy, else the configured voice if truthy, else `en-US-JennyNeural`, and is never empty |
| Ssml.GenerateSsml | speechService.js:202-218 | the document starts with the fixed speak/voice opening, the voice sits verbatim (unescaped) in the `name` attribute, and the escaped text is the whole content of the `prosody` element |
| Ssml.SsmlRoundTrip | speechService.js:204-214 | whatever the voice, the spoken text can be read back out of the generated document |
| AudioChunks.Normalize | speechService.js:102-117 | only an unsupported shape yields nothing to write, and a string goes through base64 decoding |
| AudioChunks.SameAudioSameBytes | speechService.js:103-111 | the same audio as Buffer, ArrayBuffer, full-window view, or base64 text decoding to it yields identical bytes |
| AudioChunks.ViewWritesWholeBuffer | speechService.js:109-111 | a non-Buffer view writes its entire underlying buffer, which equals its window only when the window covers the whole buffer |
| SpeechSetup.InitializeSpeechConfig | speechService.js:15-52 | outside test mode the configuration fails exactly when the key or the region is empty. It fails with the fixed message and carries the subscription and MP3 output format. Language is `SPEECH_LANGUAGE` if non-empty, else `en-US`; voice is `SPEECH_VOICE_NAME` if non-empty, else `en-US-JennyNeural`. Test mode gives fixed English settings |
| SpeechService.New | speechService.js:6-52 | construction succeeds exactly when configuration does, with no handles held and recognition off; a failed construction rethrows the configuration error "Speech service key and region must be configured" |
| SpeechService.RequestStop | speechService.js:125-134 | with no active recognition it attempts one close of an existing push stream, logged as returned or thrown, and leaves the recognizer untouched. The stream is nulled only when the close returned. Otherwise it issues the stop and changes nothing. No other field changes |
| SpeechService.OnStopSucceeded | speechService.js:136-146 | the success callback clears `isRecognizing` and attempts one close each of the recognizer and push stream, logged as returned or thrown, nulling both. No other field changes |
| SpeechService.OnStopFailed | speechService.js:147-150 | the error callback clears `isRecognizing` and changes nothing else |
| SpeechService.FeedAudioChunk | speechService.js:96-123 | at most one write and never an error. It writes exactly when there is a push stream, the shape is supported and the write does not throw, and the bytes are the normalised chunk |
| SpeechService.MalformedChunkDropped | speechService.js:96-123 | of three chunks fed with the third malformed, the first two are written in order, the third is dropped, and the stream stays open |
| SpeechService.TextToSpeech | speechService.js:159-200 | test mode resolves with fake audio. Otherwise a null config or falsy text rejects before any synthesizer exists. Otherwise a truthy voice overwrites the configured voice and nothing else of the configuration, the synthesizer is fresh, and each callback attempts one close of it, logged as returned or thrown. No other field changes. The call resolves with the result's audio exactly on `SynthesizingAudioCompleted`, rejects with "Speech synthesis failed: " and the error details on any other reason, and rejects with the SDK's error from the error callback or a synchronous throw |
| SpeechService.Dispose | speechService.js:231-246 | dispose drops the configuration and nulls the synthesizer. When recognition is flagged, the push stream and close log are exactly those of the synchronous stop run; otherwise the push stream is untouched. The synthesizer is appended once to the log of closes that returned or of closes that threw. Writes, recognizer, flag and allocator are unchanged |
| SpeechService.DisposeClosesSynthesizerOnce | speechService.js:238-241 | from a valid state, a synthesizer whose close returns is in the close log, and no handle occurs there twice |
| SpeechService.NeverDoubleClosed | speechService.js:127-150 | over any sequence of stops, callbacks, feeds, syntheses and disposes, whichever closes throw, no handle is ever closed twice and the resource invariant holds |
| SpeechService.SecondStopClosesNothing | speechService.js:127-134 | with no active recognition, a first stop closes the push stream and a second stop closes nothing |
| SpeechService.FeedAfterStopIsNoOp | speechService.js:97-100 | once a stop has succeeded, feeding audio writes nothing and raises nothing |
| SpeechService.SpeakAfterDisposeRejects | speechService.js:167-170 | after dispose, text-to-speech outside test mode rejects without creating a synthesizer |
| SpeechService.VoiceOverrideSticks | speechService.js:172-177 | a voice passed to one synthesis is the voice of every later synthesis that names none |
| CallHandler.NewHandler | callHandlerService.js:6-17 | each credential is the option if truthy, else its environment variable; the callback URI is the option if truthy, else the fixed `voxrepobot` callback URI |
| CallHandler.TokenRequestFor | callHandlerService.js:19-33 | the token URL embeds the tenant, which can be read back from it, with the graph scope and the client-credentials grant |
| CallHandler.AnswerRequestFor | callHandlerService.js:35-55 | the answer URL targets `.../calls/{callId}/answer`, with modalities exactly `["audio"]`, the configured callback URI and the bearer token |
| CallHandler.HandleCallEvent | callHandlerService.js:57-106 | the list of effects is empty exactly when the first notification is not incoming. An incoming call requests a token for its tenant first, and a token failure rethrows that error with nothing more done. A created call is then answered with that token and call id. An answer failure rethrows its error. Otherwise the speech service is built, and a construction failure rethrows its error. Otherwise `audio.wav` is transcribed and, when a callback was supplied and the transcription is truthy, the callback runs once with it. Transcription and callback failures that carry a message are swallowed |
| CallHandler.AnswerCreated | callHandlerService.js:84-98 | after the token of a created incoming call, the answer comes second and is the only answer. An answer failure rethrows its error at once. A speech-service construction failure rethrows the configuration error after the construction attempt. Otherwise the file is transcribed and the callback runs once, with the transcription, exactly when one was supplied and the transcription is truthy |
| CallHandler.OnlyFirstNotificationMatters | callHandlerService.js:65-67 | notifications after the first never change the outcome |
| CallHandler.IncomingNotCreatedOnlyFetchesToken | callHandlerService.js:76-101 | an incoming call that is not "created" fetches a token and then returns without answering |
| CallHandler.HandleSpeechTranscription | callHandlerService.js:108-129 | falsy or all-whitespace text calls nothing. Otherwise the callback, if any, gets the untrimmed text once, and its failure is rethrown with the callback's own error |
| AgentRuns.FirstText | azureAIFoundryService.js:37 | the chosen value comes from the first content item of type text whose value is a string, and exists exactly when such an item does |
| AgentRuns.SelectReply | azureAIFoundryService.js:33-42 | the overwriting loop over the ascending list computes exactly the text of the last contributing message, as `LastContribution` defines it from the end of the list |
| AgentRuns.LastContributionIsLast | azureAIFoundryService.js:34-42 | a value is found exactly when some assistant message with array content has a text item, and it is the text of the last such message |
| AgentRuns.NonContributingIgnored | azureAIFoundryService.js:36 | a message that is not an assistant message with a text item can be removed from anywhere without changing the result |
| AgentRuns.LastContributorWins | azureAIFoundryService.js:35-42 | the last contributing message alone decides the value, whatever came before it |
| AgentRuns.ReplyText | azureAIFoundryService.js:43 | the reply is never empty: a non-empty value is returned as is, and a missing or empty value becomes "No assistant response found." |
| AgentRuns.PollRun | azureAIFoundryService.js:25-28 | polling continues exactly while the status is queued or in progress and stops at the first other status |
| AgentRuns.ProcessUserMessage | azureAIFoundryService.js:15-44 | the user text is posted once as a "user" message before the run is created. Then `runs.get` is called once per pending status, about the run last seen. The first run whose status is not queued or in progress decides. If it failed, the call raises "Azure AI Foundry run failed: " and its last error, and the messages are never listed. Otherwise it lists the messages ascending and replies with the last contribution or the fallback text |

## Left out

- `speechToTextFromFile`: file I/O and transcriber wiring. It is an opaque, fallible step (`Collaborators.transcription`) of `HandleCallEvent`.
- `saveAudioToFile`: file-system I/O only.
- `MessageHandlerService`: bot-framework wiring; its only logic is an error-message fallback inside a framework callback.
- HTTP and OAuth plumbing (`axios.post`, `qs.stringify`, the token exchange): the model keeps only the request shapes and a success-or-failure outcome.
- Node's base64 decoder: it is the parameter `base64` of `AudioChunks.Normalize`. It is lenient, and its exact behaviour is not modelled.
- Timers: the one-second poll delay and the 10 ms test-mode delay. Logging is left out too. The `NODE_ENV` test check is a boolean.
- Interleaving of asynchronous callbacks: callbacks are events applied one at a time to the current state.
- `stopContinuousRecognitionAsync` throwing synchronously: not modelled. The rethrow it would cause is caught by `dispose`.
- SpeechService.TextToSpeech: a throw from `new sdk.SpeechSynthesizer` (speechService.js:176) is not modelled; the SDK's constructor is foreign code, and the model assumes it returns a synthesizer.
- A null or undefined synthesis result: the model assumes the SDK always passes a result object.
- Non-string arguments to `generateSSML`: `String(text)` coercion is not modelled.
- Notification bodies outside the modelled shape are not modelled. A null or undefined body, or a `value` whose element 0 is null or undefined, throws a TypeError. A body without a truthy `value` returns silently. A string `value` yields a first "notification" with no `resourceData`, so the handler returns. An object `value` with a `"0"` key is processed as a notification.
- Errors are modelled by their message text. A rejection or throw whose value is `null` or `undefined` is not modelled: reading its `.message` in the catch blocks (callHandlerService.js:97, :124; speechService.js:121) raises a TypeError instead. So `handleCallEvent` would reject on a nullish transcription or callback failure, `handleSpeechTranscription` would throw that TypeError instead of the callback's value, and `feedAudioChunk` would throw on a nullish write error.
- Explicit JSON `null` in a notification's `id` or `tenantId`: the template literals would render "null" in the answer or token URL. The model only knows a missing key, which renders "undefined".
- Failures of the project-client calls in `processUserMessage`: only a failed run is modelled. `last_error` is taken as already-rendered text.
- AgentRuns.PollRun: the source loop is unbounded; the model reads a finite trace of poll results, and `OutOfTrace` stands for a run still pending when the trace ends.
- Ssml.GenerateSsml: places the escaped text as the whole `prosody` content and proves it recoverable. It does not count occurrences of the text in the document.

=== FILE: agent_runs.dfy ===
/**
 * `AzureAIFoundryService.processUserMessage`: post the user's text to a new
 * thread, start a run, poll it while it is queued or in progress, fail on a
 * failed run, and otherwise pick the reply out of the thread's messages.
 * The project client is replaced by the values its calls return; the
 * unbounded polling loop reads a finite trace of `runs.get` results.
 */
module AgentRuns {
  import opened Wrappers

  const FallbackReply: string := "No assistant response found."
  const RunFailedPrefix: string := "Azure AI Foundry run failed: "

  /** A run as the client reports it; `lastError` is `last_error` rendered as text. */
  datatype Run = Run(id: string, status: string, lastError: string)

  /** The statuses the loop keeps waiting on. */
  predicate Pending(status: string) {
    status == "queued" || status == "in_progress"
  }

  /** A `text` object; `value` is absent when it is not a string. */
  datatype TextPart = TextPart(value: Option<string>)
  datatype ContentItem = ContentItem(kind: Option<string>, text: Option<TextPart>)
  /** A thread message; `content` is absent when it is not an array. */
  datatype Message = Message(role: Option<string>, content: Option<seq<ContentItem>>)

  /** `c.type === "text" && c.text && typeof c.text.value === "string"`. */
  predicate IsTextItem(c: ContentItem) {
    c.kind == Some("text") && c.text.Some? && c.text.value.value.Some?
  }

  /** The string of the first text item, as `content.find(...)` picks it. */
  function FirstText(content: seq<ContentItem>): (r: Option<string>)
    ensures r.Some? <==> exists i :: 0 <= i < |content| && IsTextItem(content[i])
    ensures r.Some? ==>
      exists i ::
        && 0 <= i < |content| && IsTextItem(content[i])
        && r.value == content[i].text.value.value.value
        && forall k :: 0 <= k < i ==> !IsTextItem(content[k])
  {
    if content == [] then None
    else if IsTextItem(content[0]) then Some(content[0].text.value.value.value)
    else FirstText(content[1..])
  }

  /** The text an assistant message offers; other roles and non-array content offer none. */
  function MessageText(m: Message): Option<string> {
    if m.role == Some("assistant") && m.content.Some? then FirstText(m.content.value) else None
  }

  predicate Contributes(m: Message) {
    MessageText(m).Some?
  }

  /** The text offered by the last contributing message. */
  function LastContribution(messages: seq<Message>): Option<string>
    decreases |messages|
  {
    if messages == [] then None
    else if Contributes(messages[|messages| - 1]) then MessageText(messages[|messages| - 1])
    else LastContribution(messages[..|messages| - 1])
  }

  /**
   * The last contributing message decides: a value exists exactly when some
   * message contributes, and it is the text of the last one that does.
   */
  lemma {:induction false} LastContributionIsLast(messages: seq<Message>)
    ensures LastContribution(messages).Some? <==> exists j :: 0 <= j < |messages| && Contributes(messages[j])
    ensures LastContribution(messages).Some? ==>
      exists j ::
        && 0 <= j < |messages| && LastContribution(messages) == MessageText(messages[j])
        && forall k :: j < k < |messages| ==> !Contributes(messages[k])
    decreases |messages|
  {
    if messages != [] {
      var n := |messages| - 1;
      var prefix := messages[..n];
      if Contributes(messages[n]) {
        assert LastContribution(messages) == MessageText(messages[n]);
      } else {
        LastContributionIsLast(prefix);
        assert forall j :: 0 <= j < n ==> messages[j] == prefix[j];
        if LastContribution(messages).Some? {
          var j :| 0 <= j < n && LastContribution(prefix) == MessageText(prefix[j])
                   && forall k :: j < k < n ==> !Contributes(prefix[k]);
          assert forall k :: j < k < |messages| ==> !Contributes(messages[k]);
        }
      }
    }
  }

  /**
   * The `for await` loop over the ascending message list: each contributing
   * message overwrites what earlier ones found, so the result is the text of
   * the last contributing message.
   */
  method SelectReply(messages: seq<Message>) returns (found: Option<string>)
    ensures found == LastContribution(messages)
  {
    found := None;
    var i := 0;
    while i < |messages|
      invariant 0 <= i <= |messages|
      invariant found == LastContribution(messages[..i])
    {
      var m := messages[i];
      if m.role == Some("assistant") && m.content.Some? {
        var content := FirstText(m.content.value);
        if content.Some? {
          found := content;
        }
      }
      assert messages[..i + 1][..i] == messages[..i];
      i := i + 1;
    }
    assert messages[..i] == messages;
  }

  /** A message that does not contribute can be dropped from anywhere in the list. */
  lemma {:induction false} NonContributingIgnored(before: seq<Message>, m: Message, after: seq<Message>)
    requires !Contributes(m)
    ensures LastContribution(before + [m] + after) == LastContribution(before + after)
    decreases |after|
  {
    if after == [] {
      assert (before + [m] + after)[..|before| + 1 - 1] == before;
      assert before + after == before;
    } else {
      var a' := after[..|after| - 1];
      var last := after[|after| - 1];
      assert before + [m] + after == (before + [m] + a') + [last];
      assert before + after == (before + a') + [last];
      assert (before + [m] + a' + [last])[..|before + [m] + a'|] == before + [m] + a';
      assert (before + a' + [last])[..|before + a'|] == before + a';
      NonContributingIgnored(before, m, a');
    }
  }

  /**
   * The last contributing message alone decides the reply: when it offers
   * the empty string, the fallback is returned even if earlier messages
   * offered text.
   */
  lemma {:induction false} LastContributorWins(earlier: seq<Message>, m: Message, later: seq<Message>)
    requires Contributes(m)
    requires forall k :: 0 <= k < |later| ==> !Contributes(later[k])
    ensures LastContribution(earlier + [m] + later) == MessageText(m)
    decreases |later|
  {
    if later == [] {
      assert earlier + [m] + later == earlier + [m];
    } else {
      var l' := later[..|later| - 1];
      assert earlier + [m] + later == (earlier + [m] + l') + [later[|later| - 1]];
      assert ((earlier + [m] + l') + [later[|later| - 1]])[..|earlier + [m] + l'|] == earlier + [m] + l';
      LastContributorWins(earlier, m, l');
    }
  }

  /** `assistantMessage || "No assistant response found."`: the reply is never empty. */
  function ReplyText(found: Option<string>): (r: string)
    ensures r != ""
    ensures found.Some? && found.value != "" ==> r == found.value
    ensures !(found.Some? && found.value != "") ==> r == FallbackReply
  {
    if found.Some? && found.value != "" then found.value else FallbackReply
  }

  /** The run after `k` polls: the created run, then each `runs.get` result in turn. */
  function RunAt(created: Run, updates: seq<Run>, k: nat): Run
    requires k <= |updates|
  {
    if k == 0 then created else updates[k - 1]
  }

  datatype PollResult = Settled(run: Run, polls: nat) | OutOfTrace

  /**
   * The polling loop: it continues exactly while the status is "queued" or
   * "in_progress" and stops at the first other status. `OutOfTrace` means
   * the supplied results ran out while the run was still pending.
   */
  method PollRun(created: Run, updates: seq<Run>) returns (r: PollResult)
    ensures r.Settled? ==>
      && r.polls <= |updates|
      && r.run == RunAt(created, updates, r.polls)
      && !Pending(r.run.status)
      && forall k :: 0 <= k < r.polls ==> Pending(RunAt(created, updates, k).status)
    ensures r.OutOfTrace? ==> forall k :: 0 <= k <= |updates| ==> Pending(RunAt(created, updates, k).status)
  {
    var run := created;
    var n := 0;
    while Pending(run.status)
      invariant 0 <= n <= |updates|
      invariant run == RunAt(created, updates, n)
      invariant forall k :: 0 <= k < n ==> Pending(RunAt(created, updates, k).status)
      decreases |updates| - n
    {
      if n == |updates| {
        return OutOfTrace;
      }
      run := updates[n];
      n := n + 1;
    }
    r := Settled(run, n);
  }

  /** The project-client calls, in the order they are made. */
  datatype Effect =
    | GetAgent(agentId: string)
    | CreateThread
    | PostMessage(threadId: string, role: string, text: string)
    | CreateRun(threadId: string, agentId: string)
    | GetRun(threadId: string, runId: string)
    | ListMessages(threadId: string, order: string)

  datatype Reply = Replied(text: string) | Failed(message: string) | StillPolling

  /** The `runs.get` calls of the first `n` polls, each asking about the run it last saw. */
  function Polls(threadId: string, created: Run, updates: seq<Run>, n: nat): (fx: seq<Effect>)
    requires n <= |updates|
  {
    seq(n, k requires 0 <= k < n && k <= |updates| => GetRun(threadId, RunAt(created, updates, k).id))
  }

  /** The run that ends the polling loop: every earlier status was pending and this one is not. */
  predicate SettlesAt(created: Run, updates: seq<Run>, n: nat)
    requires n <= |updates|
  {
    && !Pending(RunAt(created, updates, n).status)
    && forall k :: 0 <= k < n ==> Pending(RunAt(created, updates, k).status)
  }

  /** The loop settles at most once. */
  lemma SettlesAtUnique(created: Run, updates: seq<Run>, n: nat, m: nat)
    requires n <= |updates| && m <= |updates|
    requires SettlesAt(created, updates, n) && SettlesAt(created, updates, m)
    ensures n == m
  {
  }

  /**
   * `processUserMessage`. The user's text is posted once, as a "user"
   * message, before the run is created. The first run that is no longer
   * pending decides: a failed one raises its last error, any other one leads
   * to a non-empty reply read from the messages.
   * `agent` is the id `getAgent` returned and `threadId` the new thread's id.
   */
  method ProcessUserMessage(agentId: string, agent: string, threadId: string, userText: string,
                            created: Run, updates: seq<Run>, messages: seq<Message>)
    returns (trace: seq<Effect>, reply: Reply)
    ensures |trace| >= 4
    ensures trace[..4] == [GetAgent(agentId), CreateThread, PostMessage(threadId, "user", userText), CreateRun(threadId, agent)]
    ensures forall i :: 0 <= i < |trace| && trace[i].PostMessage? ==> i == 2
    ensures reply.StillPolling? <==> forall k :: 0 <= k <= |updates| ==> Pending(RunAt(created, updates, k).status)
    ensures reply.Failed? ==>
      exists n ::
        && 0 <= n <= |updates|
        && RunAt(created, updates, n).status == "failed"
        && reply.message == RunFailedPrefix + RunAt(created, updates, n).lastError
    ensures reply.Replied? ==> reply.text != "" && trace[|trace| - 1] == ListMessages(threadId, "asc")
    ensures reply.Replied? ==> reply.text == ReplyText(LastContribution(messages))
    ensures forall n: nat :: n <= |updates| && SettlesAt(created, updates, n) ==>
      reply == (if RunAt(created, updates, n).status == "failed"
                then Failed(RunFailedPrefix + RunAt(created, updates, n).lastError)
                else Replied(ReplyText(LastContribution(messages))))
    ensures forall n: nat :: n <= |updates| && SettlesAt(created, updates, n) ==>
      trace == trace[..4] + Polls(threadId, created, updates, n)
               + (if RunAt(created, updates, n).status == "failed" then [] else [ListMessages(threadId, "asc")])
    ensures reply.StillPolling? ==> trace == trace[..4] + Polls(threadId, created, updates, |updates|)
    ensures !reply.Replied? ==> forall i :: 0 <= i < |trace| ==> !trace[i].ListMessages?
  {
    trace := [GetAgent(agentId), CreateThread, PostMessage(threadId, "user", userText), CreateRun(threadId, agent)];
    var polled := PollRun(created, updates);
    match polled {
      case OutOfTrace =>
        trace := trace + Polls(threadId, created, updates, |updates|);
        reply := StillPolling;
      case Settled(run, n) =>
        trace := trace + Polls(threadId, created, updates, n);
        forall m: nat | m <= |updates| && SettlesAt(created, updates, m) ensures m == n {
          SettlesAtUnique(created, updates, m, n);
        }
        if run.status == "failed" {
          reply := Failed(RunFailedPrefix + run.lastError);
        } else {
          trace := trace + [ListMessages(threadId, "asc")];
          var found := SelectReply(messages);
          reply := Replied(ReplyText(found));
        }
    }
  }
}

=== FILE: audio_chunks.dfy ===
/**
 * Normalisation of inbound audio fragments (`SpeechService.feedAudioChunk`):
 * a dispatch on the JavaScript shape of the chunk that yields the bytes to
 * write to the push stream, or nothing for an unsupported shape.
 */
module AudioChunks {
  import opened Wrappers

  type Byte = b: int | 0 <= b < 256
  type Bytes = seq<Byte>

  /**
   * The shapes `feedAudioChunk` tells apart, in the order it tests them.
   * A `ViewChunk` is any non-Buffer object whose `.buffer` is an ArrayBuffer
   * (a typed array or a DataView): `buffer` is that whole ArrayBuffer and
   * `byteOffset`/`byteLength` the window the view covers. `OtherChunk` is
   * everything else: null, undefined, numbers, plain objects, and views over a
   * SharedArrayBuffer.
   */
  datatype Chunk =
    | StringChunk(text: string)
    | ArrayBufferChunk(bytes: Bytes)
    | BufferChunk(bytes: Bytes)
    | ViewChunk(buffer: Bytes, byteOffset: nat, byteLength: nat)
    | OtherChunk

  /** A view's window lies inside its buffer. */
  predicate ValidChunk(c: Chunk) {
    c.ViewChunk? ==> c.byteOffset + c.byteLength <= |c.buffer|
  }

  /** The bytes a view covers. */
  function Window(c: Chunk): (w: Bytes)
    requires c.ViewChunk? && ValidChunk(c)
    ensures |w| == c.byteLength
  {
    c.buffer[c.byteOffset..c.byteOffset + c.byteLength]
  }

  /**
   * The buffer `feedAudioChunk` writes for a chunk, or `None` when it warns
   * "Unsupported chunk type" and writes nothing. A string is taken to be
   * base64 and run through `base64`, which stands for Node's
   * `Buffer.from(s, 'base64')`; an ArrayBuffer is wrapped; a view contributes
   * its whole underlying ArrayBuffer.
   */
  function Normalize(chunk: Chunk, base64: string -> Bytes): (r: Option<Bytes>)
    ensures r.None? <==> chunk.OtherChunk?
    ensures chunk.StringChunk? ==> r == Some(base64(chunk.text))
  {
    match chunk
    case StringChunk(text) => Some(base64(text))
    case ArrayBufferChunk(bytes) => Some(bytes)
    case BufferChunk(bytes) => Some(bytes)
    case ViewChunk(buffer, _, _) => Some(buffer)
    case OtherChunk => None
  }

  /**
   * The same audio offered as a Buffer, as an ArrayBuffer, as a view that
   * spans its whole buffer, or as base64 text that decodes to it, yields the
   * same bytes.
   */
  lemma SameAudioSameBytes(audio: Bytes, encoded: string, base64: string -> Bytes)
    requires base64(encoded) == audio
    ensures Normalize(BufferChunk(audio), base64) == Some(audio)
    ensures Normalize(ArrayBufferChunk(audio), base64) == Some(audio)
    ensures Normalize(ViewChunk(audio, 0, |audio|), base64) == Some(audio)
    ensures Normalize(StringChunk(encoded), base64) == Some(audio)
  {
  }

  /**
   * A view writes its entire underlying buffer, not its window: the two
   * differ exactly when the window does not cover the whole buffer.
   */
  lemma ViewWritesWholeBuffer(c: Chunk, base64: string -> Bytes)
    requires c.ViewChunk? && ValidChunk(c)
    ensures Normalize(c, base64) == Some(c.buffer)
    ensures Normalize(c, base64) == Some(Window(c)) <==> c.byteLength == |c.buffer|
  {
    if c.byteLength == |c.buffer| {
      assert c.byteOffset == 0;
      assert Window(c) == c.buffer;
    }
  }
}

=== FILE: call_handler.dfy ===
/**
 * `CallHandlerService`: triage of a call notification into the effects it
 * causes (token request, answer, speech service construction, file
 * transcription, transcription callback) and whether the handler returns or
 * throws; the shapes of the token and answer requests; and
 * `handleSpeechTranscription`. Every HTTP call and collaborator is an outcome
 * supplied by the caller.
 */
module CallHandler {
  import opened Wrappers
  import opened JsText
  import SpeechSetup
  import SpeechService

  const DefaultCallbackUri: string :=
    "https://voxrepobot-f9e6b8a2dva9b4ex.canadacentral-01.azurewebsites.net/calling/callback"
  const TokenUrlPrefix: string := "https://login.microsoftonline.com/"
  const TokenUrlSuffix: string := "/oauth2/v2.0/token"
  const GraphScope: string := "https://graph.microsoft.com/.default"
  const AnswerUrlPrefix: string := "https://graph.microsoft.com/v1.0/communications/calls/"
  const AnswerUrlSuffix: string := "/answer"
  const ServiceHostedMedia: string := "#microsoft.graph.serviceHostedMediaConfig"
  /** The file `handleCallEvent` asks the speech service to transcribe. */
  const TranscriptFile: string := "audio.wav"

  /** The handler's settings after its constructor ran. */
  datatype Handler = Handler(clientId: Option<string>, clientSecret: Option<string>, botCallbackUri: string)

  /** The constructor: each option, else its environment variable; the callback URI has a fixed default. */
  function NewHandler(clientId: Option<string>, clientSecret: Option<string>, botCallbackUri: Option<string>,
                      env: SpeechSetup.Env): (h: Handler)
    ensures Truthy(clientId) ==> h.clientId == clientId
    ensures !Truthy(clientId) ==> h.clientId == SpeechSetup.Lookup(env, "clientId")
    ensures Truthy(clientSecret) ==> h.clientSecret == clientSecret
    ensures !Truthy(clientSecret) ==> h.clientSecret == SpeechSetup.Lookup(env, "clientSecret")
    ensures h.botCallbackUri != ""
    ensures Truthy(botCallbackUri) ==> h.botCallbackUri == botCallbackUri.value
    ensures !Truthy(botCallbackUri) ==> h.botCallbackUri == DefaultCallbackUri
  {
    Handler(
      if Truthy(clientId) then clientId else SpeechSetup.Lookup(env, "clientId"),
      if Truthy(clientSecret) then clientSecret else SpeechSetup.Lookup(env, "clientSecret"),
      if Truthy(botCallbackUri) then botCallbackUri.value else DefaultCallbackUri)
  }

  /** The client-credentials form `getAccessToken` posts, with its URL. */
  datatype TokenRequest = TokenRequest(
    url: string, clientId: Option<string>, scope: string, clientSecret: Option<string>, grantType: string)

  /** The JSON body `answerCall` posts, with its URL and bearer header. */
  datatype AnswerRequest = AnswerRequest(
    url: string, callbackUri: string, mediaConfigType: string, acceptedModalities: seq<string>, authorization: string)

  /** The text between a known prefix and suffix of a URL. */
  function Between(url: string, prefix: string, suffix: string): (r: Option<string>)
    ensures r.Some? ==> url == prefix + r.value + suffix
  {
    if |prefix| + |suffix| <= |url| && StartsWith(url, prefix) && EndsWith(url, suffix) then
      var mid := url[|prefix|..|url| - |suffix|];
      assert url == url[..|prefix|] + mid + url[|url| - |suffix|..];
      Some(mid)
    else None
  }

  lemma BetweenOf(prefix: string, mid: string, suffix: string)
    ensures Between(prefix + mid + suffix, prefix, suffix) == Some(mid)
  {
    var url := prefix + mid + suffix;
    assert url[..|prefix|] == prefix;
    assert url[|url| - |suffix|..] == suffix;
    assert url[|prefix|..|url| - |suffix|] == mid;
  }

  /** The tenant a token URL is for. */
  function TenantOfTokenUrl(url: string): Option<string> {
    Between(url, TokenUrlPrefix, TokenUrlSuffix)
  }

  /** The call an answer URL targets. */
  function CallOfAnswerUrl(url: string): Option<string> {
    Between(url, AnswerUrlPrefix, AnswerUrlSuffix)
  }

  /** `getAccessToken(tenantId)`: the token URL embeds the tenant, which can be read back from it. */
  function TokenRequestFor(h: Handler, tenantId: Option<string>): (req: TokenRequest)
    ensures TenantOfTokenUrl(req.url) == Some(Render(tenantId))
    ensures req.clientId == h.clientId && req.clientSecret == h.clientSecret
    ensures req.scope == GraphScope && req.grantType == "client_credentials"
  {
    BetweenOf(TokenUrlPrefix, Render(tenantId), TokenUrlSuffix);
    TokenRequest(TokenUrlPrefix + Render(tenantId) + TokenUrlSuffix, h.clientId, GraphScope, h.clientSecret,
                 "client_credentials")
  }

  /**
   * `answerCall(callId, accessToken)`: the URL targets `.../calls/{callId}/answer`,
   * only audio is accepted, and the configured callback URI is registered.
   */
  function AnswerRequestFor(h: Handler, callId: Option<string>, token: string): (req: AnswerRequest)
    ensures CallOfAnswerUrl(req.url) == Some(Render(callId))
    ensures req.acceptedModalities == ["audio"]
    ensures req.callbackUri == h.botCallbackUri
    ensures req.mediaConfigType == ServiceHostedMedia
    ensures req.authorization == "Bearer " + token
  {
    BetweenOf(AnswerUrlPrefix, Render(callId), AnswerUrlSuffix);
    AnswerRequest(AnswerUrlPrefix + Render(callId) + AnswerUrlSuffix, h.botCallbackUri, ServiceHostedMedia,
                  ["audio"], "Bearer " + token)
  }

  /**
   * The `resourceData` of a notification. A field is `None` when its key is
   * missing (JavaScript `undefined`); an explicit JSON `null` is not modelled.
   */
  datatype CallResource = CallResource(id: Option<string>, state: Option<string>, tenantId: Option<string>)
  datatype Notification = Notification(changeType: Option<string>, resourceData: Option<CallResource>)
  /** A request body; `value` is absent when the body has no `value` array. */
  datatype RequestBody = RequestBody(value: Option<seq<Notification>>)

  datatype Effect =
    | RequestToken(tokenRequest: TokenRequest)
    | Answer(answerRequest: AnswerRequest)
    | CreateSpeechService
    | TranscribeFile(path: string)
    | InvokeCallback(text: string)

  datatype Completion = Returned | Threw(error: string)

  /**
   * What the collaborators of `handleCallEvent` do: the token fetch, the
   * answer call, the environment the speech service is built from, and the
   * file transcription (whose value may be undefined).
   */
  datatype Collaborators = Collaborators(
    token: Result<string, string>,
    answer: Outcome<string>,
    env: SpeechSetup.Env,
    transcription: Result<Option<string>, string>)

  /** The body holds a first notification whose resource is in state "incoming". */
  predicate IsIncoming(body: RequestBody) {
    && body.value.Some? && |body.value.value| > 0
    && body.value.value[0].resourceData.Some?
    && body.value.value[0].resourceData.value.state == Some("incoming")
  }

  /** The incoming first notification also has change type "created". */
  predicate IsCreated(body: RequestBody) {
    IsIncoming(body) && body.value.value[0].changeType == Some("created")
  }

  /** The call resource of an incoming first notification. */
  function CallOf(body: RequestBody): CallResource
    requires IsIncoming(body)
  {
    body.value.value[0].resourceData.value
  }

  predicate HasAnswer(fx: seq<Effect>) {
    exists i :: 0 <= i < |fx| && fx[i].Answer?
  }

  predicate HasCallback(fx: seq<Effect>) {
    exists i :: 0 <= i < |fx| && fx[i].InvokeCallback?
  }

  /**
   * The part of `handleCallEvent` after the token of a created incoming call:
   * answer, construct the speech service, transcribe the file and hand a
   * truthy transcription to the callback. Answer and construction failures
   * end the run and are rethrown.
   */
  function AnswerCreated(h: Handler, call: CallResource, tokenFx: Effect, token: string, hasCallback: bool,
                         c: Collaborators): (r: (seq<Effect>, Completion))
    requires tokenFx.RequestToken?
    ensures |r.0| >= 2 && r.0[0] == tokenFx && r.0[1] == Answer(AnswerRequestFor(h, call.id, token))
    ensures forall i :: 0 <= i < |r.0| && r.0[i].Answer? ==> i == 1
    ensures HasCallback(r.0) <==>
      c.answer.Pass? && SpeechService.New(c.env).Success?
      && hasCallback && c.transcription.Success? && Truthy(c.transcription.value)
    ensures r.1.Threw? <==> c.answer.Fail? || SpeechService.New(c.env).Failure?
    ensures c.answer.Fail? ==> r == ([tokenFx, Answer(AnswerRequestFor(h, call.id, token))], Threw(c.answer.error))
    ensures c.answer.Pass? && SpeechService.New(c.env).Failure? ==>
      r == ([tokenFx, Answer(AnswerRequestFor(h, call.id, token)), CreateSpeechService],
            Threw(SpeechService.New(c.env).error))
    ensures c.answer.Pass? && SpeechService.New(c.env).Success? ==>
      r == ([tokenFx, Answer(AnswerRequestFor(h, call.id, token)), CreateSpeechService, TranscribeFile(TranscriptFile)]
            + (if hasCallback && c.transcription.Success? && Truthy(c.transcription.value)
               then [InvokeCallback(c.transcription.value.value)] else []),
            Returned)
  {
    var answerFx := Answer(AnswerRequestFor(h, call.id, token));
    match c.answer
    case Fail(e) => ([tokenFx, answerFx], Threw(e))
    case Pass =>
      match SpeechService.New(c.env)
      case Failure(e) => ([tokenFx, answerFx, CreateSpeechService], Threw(e))
      case Success(_) =>
        var fx := [tokenFx, answerFx, CreateSpeechService, TranscribeFile(TranscriptFile)];
        assert fx + [] == fx;
        match c.transcription
        case Failure(_) => (fx, Returned)
        case Success(t) =>
          if hasCallback && Truthy(t) then
            var out := fx + [InvokeCallback(t.value)];
            assert out[4].InvokeCallback?;
            (out, Returned)
          else (fx, Returned)
  }

  /**
   * `handleCallEvent`. Only the first notification is looked at. Anything
   * that is not an incoming call is a silent return; an incoming call always
   * fetches a token for its tenant, and is answered, with that token, only
   * when its change type is "created". Token and answer failures are
   * rethrown, and so is a failure to construct the speech service; a failed
   * transcription and a failing callback are swallowed.
   */
  function HandleCallEvent(h: Handler, body: RequestBody, hasCallback: bool, c: Collaborators): (r: (seq<Effect>, Completion))
    ensures r == ([], Returned) <==> !IsIncoming(body)
    ensures IsIncoming(body) ==>
      |r.0| > 0 && r.0[0] == RequestToken(TokenRequestFor(h, body.value.value[0].resourceData.value.tenantId))
    ensures HasAnswer(r.0) <==> IsCreated(body) && c.token.Success?
    ensures forall i :: 0 <= i < |r.0| && r.0[i].Answer? ==>
      i == 1 && c.token.Success? && r.0[i].answerRequest == AnswerRequestFor(h, body.value.value[0].resourceData.value.id, c.token.value)
    ensures HasCallback(r.0) <==>
      IsCreated(body) && c.token.Success? && c.answer.Pass? && SpeechService.New(c.env).Success?
      && hasCallback && c.transcription.Success? && Truthy(c.transcription.value)
    ensures r.1.Threw? <==>
      IsIncoming(body) && (c.token.Failure?
        || (IsCreated(body) && (c.answer.Fail? || SpeechService.New(c.env).Failure?)))
    ensures IsIncoming(body) && c.token.Failure? ==>
      r == ([RequestToken(TokenRequestFor(h, CallOf(body).tenantId))], Threw(c.token.error))
    ensures IsCreated(body) && c.token.Success? && c.answer.Fail? ==>
      r == ([RequestToken(TokenRequestFor(h, CallOf(body).tenantId)),
             Answer(AnswerRequestFor(h, CallOf(body).id, c.token.value))],
            Threw(c.answer.error))
    ensures IsCreated(body) && c.token.Success? && c.answer.Pass? && SpeechService.New(c.env).Failure? ==>
      r == ([RequestToken(TokenRequestFor(h, CallOf(body).tenantId)),
             Answer(AnswerRequestFor(h, CallOf(body).id, c.token.value)),
             CreateSpeechService],
            Threw(SpeechService.New(c.env).error))
    ensures IsCreated(body) && c.token.Success? && c.answer.Pass? && SpeechService.New(c.env).Success? ==>
      r == ([RequestToken(TokenRequestFor(h, CallOf(body).tenantId)),
             Answer(AnswerRequestFor(h, CallOf(body).id, c.token.value)),
             CreateSpeechService, TranscribeFile(TranscriptFile)]
            + (if hasCallback && c.transcription.Success? && Truthy(c.transcription.value)
               then [InvokeCallback(c.transcription.value.value)] else []),
            Returned)
  {
    if body.value.None? || |body.value.value| == 0 then ([], Returned)
    else
      var notification := body.value.value[0];
      if notification.resourceData.None? || notification.resourceData.value.state != Some("incoming") then ([], Returned)
      else
        var call := notification.resourceData.value;
        var tokenFx := RequestToken(TokenRequestFor(h, call.tenantId));
        match c.token
        case Failure(e) => ([tokenFx], Threw(e))
        case Success(token) =>
          if notification.changeType != Some("created") then ([tokenFx], Returned)
          else
            var r := AnswerCreated(h, call, tokenFx, token, hasCallback, c);
            assert r.0[1].Answer?;
            r
  }

  /** Notifications after the first never change what the handler does. */
  lemma OnlyFirstNotificationMatters(h: Handler, first: Notification, rest1: seq<Notification>,
                                     rest2: seq<Notification>, hasCallback: bool, c: Collaborators)
    ensures HandleCallEvent(h, RequestBody(Some([first] + rest1)), hasCallback, c)
         == HandleCallEvent(h, RequestBody(Some([first] + rest2)), hasCallback, c)
  {
  }

  /**
   * An incoming call whose change type is not "created" still costs a token
   * request, and nothing else happens.
   */
  lemma IncomingNotCreatedOnlyFetchesToken(h: Handler, body: RequestBody, hasCallback: bool, c: Collaborators)
    requires IsIncoming(body) && !IsCreated(body) && c.token.Success?
    ensures HandleCallEvent(h, body, hasCallback, c)
         == ([RequestToken(TokenRequestFor(h, body.value.value[0].resourceData.value.tenantId))], Returned)
  {
  }

  /**
   * `handleSpeechTranscription`: falsy or whitespace-only text calls nothing;
   * otherwise the callback, when there is one, gets the untrimmed text once,
   * and its failure is rethrown.
   */
  function HandleSpeechTranscription(transcription: Option<string>, hasCallback: bool, callback: Outcome<string>)
    : (r: (seq<Effect>, Completion))
    ensures transcription.None? || Blank(transcription.value) ==> r == ([], Returned)
    ensures transcription.Some? && !Blank(transcription.value) ==>
      && r.0 == (if hasCallback then [InvokeCallback(transcription.value)] else [])
      && (r.1.Threw? <==> hasCallback && callback.Fail?)
    ensures transcription.Some? && !Blank(transcription.value) && hasCallback && callback.Fail? ==>
      r.1 == Threw(callback.error)
  {
    TrimEmptyIffBlank(if transcription.Some? then transcription.value else "");
    if !Truthy(transcription) || |Trim(transcription.value)| == 0 then ([], Returned)
    else if hasCallback then
      match callback
      case Pass => ([InvokeCallback(transcription.value)], Returned)
      case Fail(e) => ([InvokeCallback(transcription.value)], Threw(e))
    else ([], Returned)
  }
}

=== FILE: js_text.dfy ===
/**
 * The few JavaScript value semantics the services lean on: truthiness of an
 * optional string, how a template literal renders a missing value, and
 * `String.prototype.trim`.
 */
module JsText {
  import opened Wrappers

  /** A string-or-missing value is truthy when it is present and non-empty. */
  predicate Truthy(o: Option<string>) {
    o.Some? && o.value != ""
  }

  /** `${x}` inside a template literal: a missing value renders as "undefined". */
  function Render(o: Option<string>): (r: string)
    ensures o.Some? ==> r == o.value
    ensures o.None? ==> r == "undefined"
  {
    match o
    case Some(v) => v
    case None => "undefined"
  }

  predicate StartsWith(s: string, p: string) {
    |p| <= |s| && s[..|p|] == p
  }

  predicate EndsWith(s: string, p: string) {
    |p| <= |s| && s[|s| - |p|..] == p
  }

  /** The code points `trim` removes: ECMAScript WhiteSpace and LineTerminator. */
  predicate IsWhitespace(c: char) {
    || c == '\t' || c == '\n' || c == '\U{B}' || c == '\U{C}' || c == '\r'
    || c == ' ' || c == '\U{A0}' || c == '\U{1680}'
    || ('\U{2000}' <= c <= '\U{200A}')
    || c == '\U{2028}' || c == '\U{2029}' || c == '\U{202F}' || c == '\U{205F}'
    || c == '\U{3000}' || c == '\U{FEFF}'
  }

  predicate Blank(s: string) {
    forall i :: 0 <= i < |s| ==> IsWhitespace(s[i])
  }

  /** Drops leading whitespace: what is removed is blank, what stays does not start blank. */
  function TrimStart(s: string): (r: string)
    ensures |r| <= |s| && r == s[|s| - |r|..]
    ensures Blank(s[..|s| - |r|])
    ensures r != [] ==> !IsWhitespace(r[0])
  {
    if s != [] && IsWhitespace(s[0]) then
      var r := TrimStart(s[1..]);
      assert s[..|s| - |r|] == [s[0]] + s[1..][..|s| - 1 - |r|];
      r
    else s
  }

  /** Drops trailing whitespace: what is removed is blank, what stays does not end blank. */
  function TrimEnd(s: string): (r: string)
    ensures |r| <= |s| && r == s[..|r|]
    ensures Blank(s[|r|..])
    ensures r != [] ==> !IsWhitespace(r[|r| - 1])
  {
    if s != [] && IsWhitespace(s[|s| - 1]) then
      var r := TrimEnd(s[..|s| - 1]);
      assert s[|r|..] == s[..|s| - 1][|r|..] + [s[|s| - 1]];
      r
    else s
  }

  function Trim(s: string): string {
    TrimEnd(TrimStart(s))
  }

  /** `s.trim().length === 0` holds exactly when every character of `s` is whitespace. */
  lemma TrimEmptyIffBlank(s: string)
    ensures |Trim(s)| == 0 <==> Blank(s)
  {
  }
}

=== FILE: speech_service.dfy ===
/**
 * The resource lifecycle of `SpeechService`: stopping continuous recognition,
 * feeding the push stream, one text-to-speech round trip, and `dispose`.
 *
 * SDK objects are opaque handles drawn from a counter (`new` always yields a
 * fresh one). Every asynchronous SDK callback is an explicit event, and every
 * `close()` call is logged: in `closed` when it returned, in `failedCloses`
 * when it threw (the source swallows those). No method of `SpeechService`
 * sets `isRecognizing` to true or stores a stream in `pushStream`, so any
 * initial state may be given.
 */
module SpeechService {
  import opened Wrappers
  import opened JsText
  import opened AudioChunks
  import Ssml
  import SpeechSetup

  type Handle = nat

  /** One buffer written to a push stream. */
  datatype Write = Write(stream: Handle, bytes: Bytes)

  datatype State = State(
    config: Option<SpeechSetup.Config>,
    isRecognizing: bool,
    recognizer: Option<Handle>,
    pushStream: Option<Handle>,
    synthesizer: Option<Handle>,
    nextHandle: nat,
    writes: seq<Write>,
    closed: seq<Handle>,
    failedCloses: seq<Handle>)

  /** The handles the service's fields currently hold. */
  function Held(s: State): set<Handle> {
    (if s.recognizer.Some? then {s.recognizer.value} else {})
    + (if s.pushStream.Some? then {s.pushStream.value} else {})
    + (if s.synthesizer.Some? then {s.synthesizer.value} else {})
  }

  /** No handle occurs twice in the log. */
  predicate Distinct(xs: seq<Handle>) {
    forall i, j :: 0 <= i < j < |xs| ==> xs[i] != xs[j]
  }

  /**
   * The resource invariant: the fields hold distinct live handles, and no
   * handle has been closed twice or is still held after it was closed.
   */
  predicate Wf(s: State) {
    && (forall h :: h in Held(s) ==> h < s.nextHandle)
    && (s.recognizer.Some? && s.pushStream.Some? ==> s.recognizer.value != s.pushStream.value)
    && (s.recognizer.Some? && s.synthesizer.Some? ==> s.recognizer.value != s.synthesizer.value)
    && (s.pushStream.Some? && s.synthesizer.Some? ==> s.pushStream.value != s.synthesizer.value)
    && (forall i :: 0 <= i < |s.closed| ==> s.closed[i] < s.nextHandle && s.closed[i] !in Held(s))
    && Distinct(s.closed)
  }

  /** The constructor: configuration from the environment, every field empty. */
  function New(env: SpeechSetup.Env): (r: Result<State, string>)
    ensures r.Success? <==> SpeechSetup.InitializeSpeechConfig(env).Success?
    ensures r.Success? ==> Wf(r.value) && !r.value.isRecognizing && Held(r.value) == {}
    ensures r.Success? ==> r.value.config == Some(SpeechSetup.InitializeSpeechConfig(env).value)
    ensures r.Failure? ==> r.error == SpeechSetup.InitializeSpeechConfig(env).error == SpeechSetup.ConfigError
  {
    match SpeechSetup.InitializeSpeechConfig(env)
    case Success(config) => Success(State(Some(config), false, None, None, None, 0, [], [], []))
    case Failure(e) => Failure(e)
  }

  /** One `close()` call on `h`, which returned when `ok` and threw otherwise. */
  function Close(s: State, h: Handle, ok: bool): State {
    if ok then s.(closed := s.closed + [h]) else s.(failedCloses := s.failedCloses + [h])
  }

  datatype StopRequest = NothingToStop | StopIssued

  /**
   * The synchronous part of `stopContinuousRecognition`. With no active
   * recognition it closes an existing push stream, nulling it only when the
   * close returned, and leaves the recognizer alone; otherwise it issues the
   * asynchronous stop and changes nothing until a callback arrives.
   */
  function RequestStop(s: State, streamCloseOk: bool): (r: (State, StopRequest))
    ensures r.1 == StopIssued <==> s.isRecognizing && s.recognizer.Some?
    ensures r.1 == StopIssued ==> r.0 == s
    ensures r.0.recognizer == s.recognizer && r.0.isRecognizing == s.isRecognizing
    ensures r.0.synthesizer == s.synthesizer && r.0.config == s.config && r.0.writes == s.writes
    ensures r.1 == NothingToStop && s.pushStream.Some? && streamCloseOk ==>
      r.0.pushStream.None? && r.0.closed == s.closed + [s.pushStream.value]
    ensures r.1 == NothingToStop && s.pushStream.Some? && !streamCloseOk ==>
      r.0.pushStream == s.pushStream && r.0.closed == s.closed
    ensures s.pushStream.None? ==> r.0 == s
    ensures r.1 == NothingToStop && s.pushStream.Some? ==>
      r.0.failedCloses == s.failedCloses + (if streamCloseOk then [] else [s.pushStream.value])
    ensures r.0 == s.(pushStream := r.0.pushStream, closed := r.0.closed, failedCloses := r.0.failedCloses)
  {
    if !s.isRecognizing || s.recognizer.None? then
      match s.pushStream
      case None => (s, NothingToStop)
      case Some(h) =>
        if streamCloseOk then (Close(s, h, true).(pushStream := None), NothingToStop)
        else (Close(s, h, false), NothingToStop)
    else
      (s, StopIssued)
  }

  /**
   * The success callback of `stopContinuousRecognitionAsync`: recognition is
   * over and the recognizer and the push stream are each closed once and
   * nulled. A recognizer that is already null is not closed (the call throws
   * and is swallowed).
   */
  function OnStopSucceeded(s: State, recognizerCloseOk: bool, streamCloseOk: bool): (r: State)
    ensures !r.isRecognizing && r.recognizer.None? && r.pushStream.None?
    ensures r.synthesizer == s.synthesizer && r.config == s.config && r.writes == s.writes
    ensures r.closed ==
      s.closed
      + (if s.recognizer.Some? && recognizerCloseOk then [s.recognizer.value] else [])
      + (if s.pushStream.Some? && streamCloseOk then [s.pushStream.value] else [])
    ensures r.failedCloses ==
      s.failedCloses
      + (if s.recognizer.Some? && !recognizerCloseOk then [s.recognizer.value] else [])
      + (if s.pushStream.Some? && !streamCloseOk then [s.pushStream.value] else [])
    ensures r == s.(isRecognizing := false, recognizer := None, pushStream := None,
                    closed := r.closed, failedCloses := r.failedCloses)
  {
    var s1 := s.(isRecognizing := false);
    var s2 := (if s.recognizer.Some? then Close(s1, s.recognizer.value, recognizerCloseOk) else s1).(recognizer := None);
    if s.pushStream.Some? then Close(s2, s.pushStream.value, streamCloseOk).(pushStream := None) else s2
  }

  /** The error callback of `stopContinuousRecognitionAsync`: only the flag is cleared. */
  function OnStopFailed(s: State): (r: State)
    ensures !r.isRecognizing
    ensures r.(isRecognizing := s.isRecognizing) == s
  {
    s.(isRecognizing := false)
  }

  datatype FeedOutcome = NoPushStream | UnsupportedChunk | Written(bytes: Bytes) | WriteThrew

  /**
   * `feedAudioChunk`: at most one write, and no error ever escapes. Nothing
   * is written without a push stream, for an unsupported shape, or when the
   * write itself throws.
   */
  function FeedAudioChunk(s: State, chunk: Chunk, base64: string -> Bytes, writeOk: bool): (r: (State, FeedOutcome))
    ensures r.0 == s || (r.1.Written? && s.pushStream.Some? && r.0 == s.(writes := s.writes + [Write(s.pushStream.value, r.1.bytes)]))
    ensures r.1.Written? <==> s.pushStream.Some? && !chunk.OtherChunk? && writeOk
    ensures r.1.Written? ==> Normalize(chunk, base64) == Some(r.1.bytes)
    ensures r.1 == NoPushStream <==> s.pushStream.None?
    ensures r.1 == UnsupportedChunk <==> s.pushStream.Some? && chunk.OtherChunk?
  {
    match s.pushStream
    case None => (s, NoPushStream)
    case Some(h) =>
      match Normalize(chunk, base64)
      case None => (s, UnsupportedChunk)
      case Some(buf) =>
        if writeOk then (s.(writes := s.writes + [Write(h, buf)]), Written(buf))
        else (s, WriteThrew)
  }

  /** The SDK's `ResultReason` values that matter here. */
  datatype ResultReason = SynthesizingAudioCompleted | Canceled | OtherReason(code: int)

  datatype SynthResult = SynthResult(reason: ResultReason, audioData: Bytes, errorDetails: string)

  /** How `speakSsmlAsync` ends: one of its two callbacks, or a synchronous throw. */
  datatype SynthOutcome =
    | ResultCallback(result: SynthResult)
    | ErrorCallback(error: string)
    | SpeakThrew(error: string)

  datatype Settled = Resolved(audio: Bytes) | Rejected(message: string)

  /** One `textToSpeech` call: the new state, the SSML sent, the synthesizer made, and how the promise settled. */
  datatype TtsRun = TtsRun(state: State, ssml: Option<string>, synthesizer: Option<Handle>, settled: Settled)

  const GuardError: string := "Speech configuration not initialized or text is empty"
  const SynthesisFailedPrefix: string := "Speech synthesis failed: "

  /** `Buffer.from('fake audio data')`. */
  const FakeAudio: Bytes := [102, 97, 107, 101, 32, 97, 117, 100, 105, 111, 32, 100, 97, 116, 97]

  /**
   * `textToSpeech`. In test mode it resolves with fake audio and touches
   * nothing. Otherwise it rejects, before any synthesizer exists, when the
   * configuration is null or the text falsy; whitespace-only text passes. A
   * truthy `voiceName` overwrites the configured voice for good. A fresh
   * synthesizer speaks the SSML and is closed exactly once by whichever
   * callback fires; only a completed synthesis resolves, with its audio, and
   * every other ending rejects with the SDK's details or error.
   */
  function TextToSpeech(s: State, testMode: bool, text: Option<string>, voiceName: Option<string>,
                        outcome: SynthOutcome, closeOk: bool): (r: TtsRun)
    ensures testMode ==> r == TtsRun(s, None, None, Resolved(FakeAudio))
    ensures !testMode && (s.config.None? || !Truthy(text)) ==> r == TtsRun(s, None, None, Rejected(GuardError))
    ensures r.synthesizer.Some? <==> !testMode && s.config.Some? && Truthy(text)
    ensures r.synthesizer.Some? ==>
      && r.synthesizer.value == s.nextHandle
      && r.state.config.Some?
      && r.state.config.value.voice == (if Truthy(voiceName) then voiceName.value else s.config.value.voice)
      && r.ssml == Some(Ssml.GenerateSsml(text.value, voiceName, Some(r.state.config.value.voice)))
      && r.state.isRecognizing == s.isRecognizing && Held(r.state) == Held(s) && r.state.writes == s.writes
    ensures r.synthesizer.Some? && !outcome.SpeakThrew? ==>
      && (closeOk ==> r.state.closed == s.closed + [r.synthesizer.value] && r.state.failedCloses == s.failedCloses)
      && (!closeOk ==> r.state.closed == s.closed && r.state.failedCloses == s.failedCloses + [r.synthesizer.value])
    ensures r.synthesizer.Some? && outcome.SpeakThrew? ==>
      r.state.closed == s.closed && r.state.failedCloses == s.failedCloses
    ensures r.synthesizer.Some? ==>
      r.state == s.(config := Some(s.config.value.(voice := r.state.config.value.voice)),
                    nextHandle := s.nextHandle + 1,
                    closed := r.state.closed, failedCloses := r.state.failedCloses)
    ensures r.settled.Resolved? <==>
      testMode || (r.synthesizer.Some? && outcome.ResultCallback? && outcome.result.reason == SynthesizingAudioCompleted)
    ensures r.synthesizer.Some? && outcome.ResultCallback? && outcome.result.reason == SynthesizingAudioCompleted ==>
      r.settled == Resolved(outcome.result.audioData)
    ensures r.synthesizer.Some? && outcome.ResultCallback? && outcome.result.reason != SynthesizingAudioCompleted ==>
      r.settled == Rejected(SynthesisFailedPrefix + outcome.result.errorDetails)
    ensures r.synthesizer.Some? && (outcome.ErrorCallback? || outcome.SpeakThrew?) ==>
      r.settled == Rejected(outcome.error)
  {
    if testMode then
      TtsRun(s, None, None, Resolved(FakeAudio))
    else if s.config.None? || !Truthy(text) then
      TtsRun(s, None, None, Rejected(GuardError))
    else
      var config := if Truthy(voiceName) then s.config.value.(voice := voiceName.value) else s.config.value;
      var h := s.nextHandle;
      var s1 := s.(config := Some(config), nextHandle := s.nextHandle + 1);
      var ssml := Ssml.GenerateSsml(text.value, voiceName, Some(config.voice));
      match outcome
      case ResultCallback(result) =>
        var settled :=
          if result.reason == SynthesizingAudioCompleted then Resolved(result.audioData)
          else Rejected(SynthesisFailedPrefix + result.errorDetails);
        TtsRun(Close(s1, h, closeOk), Some(ssml), Some(h), settled)
      case ErrorCallback(error) =>
        TtsRun(Close(s1, h, closeOk), Some(ssml), Some(h), Rejected(error))
      case SpeakThrew(error) =>
        TtsRun(s1, Some(ssml), Some(h), Rejected(error))
  }

  /**
   * `dispose`: a stop request when recognition is flagged (not awaited), the
   * service's synthesizer closed once and nulled, and the configuration
   * dropped, so every later `textToSpeech` outside test mode rejects.
   */
  function Dispose(s: State, streamCloseOk: bool, synthCloseOk: bool): (r: State)
    ensures r.config.None? && r.synthesizer.None?
    ensures r.isRecognizing == s.isRecognizing && r.recognizer == s.recognizer
    ensures !s.isRecognizing ==> r.pushStream == s.pushStream
    ensures s.isRecognizing ==> r.pushStream == RequestStop(s, streamCloseOk).0.pushStream
    ensures r.closed ==
      (if s.isRecognizing then RequestStop(s, streamCloseOk).0.closed else s.closed)
      + (if s.synthesizer.Some? && synthCloseOk then [s.synthesizer.value] else [])
    ensures r.failedCloses ==
      (if s.isRecognizing then RequestStop(s, streamCloseOk).0.failedCloses else s.failedCloses)
      + (if s.synthesizer.Some? && !synthCloseOk then [s.synthesizer.value] else [])
    ensures r == s.(config := None, synthesizer := None, pushStream := r.pushStream,
                    closed := r.closed, failedCloses := r.failedCloses)
  {
    var s1 := if s.isRecognizing then RequestStop(s, streamCloseOk).0 else s;
    var s2 := if s1.synthesizer.Some? then Close(s1, s1.synthesizer.value, synthCloseOk).(synthesizer := None) else s1;
    s2.(config := None)
  }

  /** Everything that can happen to the service, one at a time. */
  datatype Event =
    | StopCalled(streamCloseOk: bool)
    | StopSucceeded(recognizerCloseOk: bool, streamCloseOk: bool)
    | StopFailed
    | FeedCalled(chunk: Chunk, writeOk: bool)
    | SpeakCalled(testMode: bool, text: Option<string>, voiceName: Option<string>, outcome: SynthOutcome, closeOk: bool)
    | DisposeCalled(streamCloseOk: bool, synthCloseOk: bool)

  function Step(s: State, e: Event, base64: string -> Bytes): State {
    match e
    case StopCalled(ok) => RequestStop(s, ok).0
    case StopSucceeded(recOk, streamOk) => OnStopSucceeded(s, recOk, streamOk)
    case StopFailed => OnStopFailed(s)
    case FeedCalled(chunk, ok) => FeedAudioChunk(s, chunk, base64, ok).0
    case SpeakCalled(testMode, text, voiceName, outcome, ok) => TextToSpeech(s, testMode, text, voiceName, outcome, ok).state
    case DisposeCalled(streamOk, synthOk) => Dispose(s, streamOk, synthOk)
  }

  function Run(s: State, events: seq<Event>, base64: string -> Bytes): State
    decreases |events|
  {
    if events == [] then s else Run(Step(s, events[0], base64), events[1..], base64)
  }

  /** Each field of `t` either keeps the handle it had in `s` or is null. */
  predicate FieldsShrink(s: State, t: State) {
    && (t.recognizer == s.recognizer || t.recognizer.None?)
    && (t.pushStream == s.pushStream || t.pushStream.None?)
    && (t.synthesizer == s.synthesizer || t.synthesizer.None?)
  }

  /** Releasing a held handle, closing it at most once, keeps the invariant. */
  lemma ReleasePreservesWf(s: State, t: State, h: Handle)
    requires Wf(s) && h in Held(s)
    requires FieldsShrink(s, t) && h !in Held(t)
    requires t.nextHandle == s.nextHandle
    requires t.closed == s.closed || t.closed == s.closed + [h]
    ensures Wf(t)
  {
    assert Held(t) <= Held(s);
    forall i | 0 <= i < |s.closed| ensures s.closed[i] != h {
    }
  }

  /** Closing a handle no field holds and no one has closed keeps the invariant. */
  lemma FreshClosePreservesWf(s: State, t: State, h: Handle)
    requires Wf(s) && h == s.nextHandle
    requires t.recognizer == s.recognizer && t.pushStream == s.pushStream && t.synthesizer == s.synthesizer
    requires t.nextHandle == s.nextHandle + 1
    requires t.closed == s.closed || t.closed == s.closed + [h]
    ensures Wf(t)
  {
    assert Held(t) == Held(s);
    forall i | 0 <= i < |s.closed| ensures s.closed[i] != h {
    }
  }

  /** A step that leaves the handle fields, the allocator and the close log alone keeps the invariant. */
  lemma SameResourcesPreservesWf(s: State, t: State)
    requires Wf(s)
    requires t.recognizer == s.recognizer && t.pushStream == s.pushStream && t.synthesizer == s.synthesizer
    requires t.nextHandle == s.nextHandle && t.closed == s.closed
    ensures Wf(t)
  {
    assert Held(t) == Held(s);
  }

  lemma RequestStopPreservesWf(s: State, ok: bool)
    requires Wf(s)
    ensures Wf(RequestStop(s, ok).0)
  {
    if (!s.isRecognizing || s.recognizer.None?) && s.pushStream.Some? && ok {
      ReleasePreservesWf(s, RequestStop(s, ok).0, s.pushStream.value);
    } else {
      SameResourcesPreservesWf(s, RequestStop(s, ok).0);
    }
  }

  lemma OnStopSucceededPreservesWf(s: State, recOk: bool, streamOk: bool)
    requires Wf(s)
    ensures Wf(OnStopSucceeded(s, recOk, streamOk))
  {
    var s1 := s.(isRecognizing := false);
    assert Held(s1) == Held(s);
    var s2 := (if s.recognizer.Some? then Close(s1, s.recognizer.value, recOk) else s1).(recognizer := None);
    if s.recognizer.Some? {
      ReleasePreservesWf(s1, s2, s.recognizer.value);
    }
    if s.pushStream.Some? {
      ReleasePreservesWf(s2, Close(s2, s.pushStream.value, streamOk).(pushStream := None), s.pushStream.value);
    }
  }

  lemma TextToSpeechPreservesWf(s: State, testMode: bool, text: Option<string>, voiceName: Option<string>,
                                outcome: SynthOutcome, ok: bool)
    requires Wf(s)
    ensures Wf(TextToSpeech(s, testMode, text, voiceName, outcome, ok).state)
  {
    var r := TextToSpeech(s, testMode, text, voiceName, outcome, ok);
    if r.synthesizer.Some? {
      FreshClosePreservesWf(s, r.state, s.nextHandle);
    }
  }

  lemma DisposePreservesWf(s: State, streamOk: bool, synthOk: bool)
    requires Wf(s)
    ensures Wf(Dispose(s, streamOk, synthOk))
  {
    var s1 := if s.isRecognizing then RequestStop(s, streamOk).0 else s;
    RequestStopPreservesWf(s, streamOk);
    assert Wf(s1);
    if s1.synthesizer.Some? {
      var h := s1.synthesizer.value;
      ReleasePreservesWf(s1, Close(s1, h, synthOk).(synthesizer := None, config := None), h);
    } else {
      SameResourcesPreservesWf(s1, s1.(config := None));
    }
  }

  /**
   * A disposed service's synthesizer, when its close returns, is in the log
   * exactly once: the stop run closes only the push stream, and no handle
   * was closed before.
   */
  lemma DisposeClosesSynthesizerOnce(s: State, streamOk: bool)
    requires Wf(s) && s.synthesizer.Some?
    ensures var r := Dispose(s, streamOk, true);
      && s.synthesizer.value in r.closed
      && Distinct(r.closed)
  {
    DisposePreservesWf(s, streamOk, true);
  }

  /** Every event keeps the resource invariant. */
  lemma StepPreservesWf(s: State, e: Event, base64: string -> Bytes)
    requires Wf(s)
    ensures Wf(Step(s, e, base64))
  {
    match e
    case StopCalled(ok) => RequestStopPreservesWf(s, ok);
    case StopSucceeded(recOk, streamOk) => OnStopSucceededPreservesWf(s, recOk, streamOk);
    case StopFailed => SameResourcesPreservesWf(s, OnStopFailed(s));
    case FeedCalled(chunk, ok) => SameResourcesPreservesWf(s, FeedAudioChunk(s, chunk, base64, ok).0);
    case SpeakCalled(testMode, text, voiceName, outcome, ok) =>
      TextToSpeechPreservesWf(s, testMode, text, voiceName, outcome, ok);
    case DisposeCalled(streamOk, synthOk) => DisposePreservesWf(s, streamOk, synthOk);
  }

  /**
   * Whatever the order of calls and callbacks and whichever `close()` calls
   * throw, no recognizer, push stream or synthesizer is ever closed twice.
   */
  lemma {:induction false} NeverDoubleClosed(s: State, events: seq<Event>, base64: string -> Bytes)
    requires Wf(s)
    ensures Wf(Run(s, events, base64))
    ensures Distinct(Run(s, events, base64).closed)
    decreases |events|
  {
    if events != [] {
      StepPreservesWf(s, events[0], base64);
      NeverDoubleClosed(Step(s, events[0], base64), events[1..], base64);
    }
  }

  /**
   * With no active recognition, a stop closes the push stream once; a second
   * stop after that closes nothing.
   */
  lemma SecondStopClosesNothing(s: State)
    requires !s.isRecognizing || s.recognizer.None?
    requires s.pushStream.Some?
    ensures var s1 := RequestStop(s, true).0;
      && s1.closed == s.closed + [s.pushStream.value]
      && s1.recognizer == s.recognizer
      && RequestStop(s1, true) == (s1, NothingToStop)
  {
  }

  /** Once a stop has succeeded, feeding audio is a silent no-op. */
  lemma FeedAfterStopIsNoOp(s: State, recOk: bool, streamOk: bool, chunk: Chunk, base64: string -> Bytes, writeOk: bool)
    ensures var s1 := OnStopSucceeded(s, recOk, streamOk);
      FeedAudioChunk(s1, chunk, base64, writeOk) == (s1, NoPushStream)
  {
  }

  /**
   * Three chunks fed to an open push stream, the third of an unsupported
   * shape: the first two are written in order, the third is dropped, and the
   * stream stays open.
   */
  lemma MalformedChunkDropped(s: State, a: Bytes, b: Bytes, base64: string -> Bytes)
    requires s.pushStream.Some?
    ensures var s1 := FeedAudioChunk(s, BufferChunk(a), base64, true).0;
      var s2 := FeedAudioChunk(s1, ArrayBufferChunk(b), base64, true).0;
      var r3 := FeedAudioChunk(s2, OtherChunk, base64, true);
      && r3.1 == UnsupportedChunk
      && r3.0.writes == s.writes + [Write(s.pushStream.value, a), Write(s.pushStream.value, b)]
      && r3.0.pushStream == s.pushStream
  {
  }

  /** After `dispose`, text-to-speech outside test mode rejects without making a synthesizer. */
  lemma SpeakAfterDisposeRejects(s: State, streamOk: bool, synthOk: bool, text: Option<string>,
                                 voiceName: Option<string>, outcome: SynthOutcome, closeOk: bool)
    ensures var d := Dispose(s, streamOk, synthOk);
      TextToSpeech(d, false, text, voiceName, outcome, closeOk) == TtsRun(d, None, None, Rejected(GuardError))
  {
  }

  /** A voice given to one call is the voice of every later call that names none. */
  lemma VoiceOverrideSticks(s: State, text1: Option<string>, voice: string, outcome1: SynthOutcome, ok1: bool,
                            text2: Option<string>, outcome2: SynthOutcome, ok2: bool)
    requires s.config.Some? && Truthy(text1) && Truthy(text2) && voice != ""
    ensures var r1 := TextToSpeech(s, false, text1, Some(voice), outcome1, ok1);
      var r2 := TextToSpeech(r1.state, false, text2, None, outcome2, ok2);
      r2.ssml == Some(Ssml.GenerateSsml(text2.value, Some(voice), None))
  {
  }
}

=== FILE: speech_setup.dfy ===
/**
 * `SpeechService.initializeSpeechConfig`: from the process environment to a
 * speech configuration, or the configuration error.
 */
module SpeechSetup {
  import opened Wrappers
  import opened JsText

  type Env = map<string, string>

  datatype OutputFormat = Audio16Khz32KBitRateMonoMp3

  /** The subscription a configuration was built from. */
  datatype Subscription = Subscription(key: string, region: string)

  /**
   * The fields of the configuration the services read. The test-mode
   * configuration is a plain object with no subscription and no output format.
   */
  datatype Config = Config(
    language: string,
    voice: string,
    outputFormat: Option<OutputFormat>,
    subscription: Option<Subscription>)

  const DefaultLanguage: string := "en-US"
  /** The voice used when neither the caller nor the configuration names one. */
  const DefaultVoice: string := "en-US-JennyNeural"
  const ConfigError: string := "Speech service key and region must be configured"

  /** `process.env[name]`, absent when the variable is unset. */
  function Lookup(env: Env, name: string): Option<string> {
    if name in env then Some(env[name]) else None
  }

  predicate TestMode(env: Env) {
    Lookup(env, "NODE_ENV") == Some("test")
  }

  /** `process.env[name] || fallback`. */
  function EnvOr(env: Env, name: string, fallback: string): (v: string)
    requires fallback != ""
    ensures v != ""
    ensures Truthy(Lookup(env, name)) ==> v == env[name]
    ensures !Truthy(Lookup(env, name)) ==> v == fallback
  {
    if Truthy(Lookup(env, name)) then env[name] else fallback
  }

  /**
   * Test mode short-circuits to fixed English settings. Otherwise both the key
   * and the region must be non-empty, the language and voice fall back to
   * their defaults, and the output format is 16 kHz 32 kbit/s mono MP3.
   */
  function InitializeSpeechConfig(env: Env): (r: Result<Config, string>)
    ensures r.Failure? <==>
      !TestMode(env) && (!Truthy(Lookup(env, "SPEECH_SERVICE_KEY")) || !Truthy(Lookup(env, "SPEECH_SERVICE_REGION")))
    ensures r.Failure? ==> r.error == ConfigError
    ensures r.Success? ==> r.value.language != "" && r.value.voice != ""
    ensures r.Success? && !TestMode(env) ==>
      && r.value.language == EnvOr(env, "SPEECH_LANGUAGE", DefaultLanguage)
      && r.value.voice == EnvOr(env, "SPEECH_VOICE_NAME", DefaultVoice)
    ensures r.Success? && TestMode(env) ==>
      r.value == Config(DefaultLanguage, DefaultVoice, None, None)
    ensures r.Success? && !TestMode(env) ==>
      && r.value.subscription == Some(Subscription(env["SPEECH_SERVICE_KEY"], env["SPEECH_SERVICE_REGION"]))
      && r.value.outputFormat == Some(Audio16Khz32KBitRateMonoMp3)
  {
    if TestMode(env) then
      Success(Config(DefaultLanguage, DefaultVoice, None, None))
    else
      var key := Lookup(env, "SPEECH_SERVICE_KEY");
      var region := Lookup(env, "SPEECH_SERVICE_REGION");
      if !Truthy(key) || !Truthy(region) then Failure(ConfigError)
      else
        Success(Config(
          EnvOr(env, "SPEECH_LANGUAGE", DefaultLanguage),
          EnvOr(env, "SPEECH_VOICE_NAME", DefaultVoice),
          Some(Audio16Khz32KBitRateMonoMp3),
          Some(Subscription(key.value, region.value))))
  }
}

=== FILE: ssml.dfy ===
/**
 * Building the SSML document handed to the speech synthesizer
 * (`SpeechService.generateSSML`): the voice is chosen by a three-level
 * fallback and the text is escaped by replacing each of the five XML special
 * characters of section 2.4 of the XML 1.0 specification with its predefined
 * entity. The escaping is total and exact: it is inverted by `Unescape`, and
 * the text can be read back out of the finished document.
 */
module Ssml {
  import opened Wrappers
  import opened JsText
  import opened SpeechSetup

  /** Everything of the template that precedes the voice name. */
  const SpeakOpen: string :=
    "\n            <speak version=\"1.0\" xmlns=\"http://www.w3.org/2001/10/synthesis\" xml:lang=\"en-US\">\n                <voice name=\""
  /** Everything of the template between the voice name and the escaped text. */
  const ProsodyOpen: string := "\">\n                    <prosody rate=\"medium\" pitch=\"medium\">"
  /** Everything of the template after the escaped text. */
  const SpeakClose: string := "</prosody>\n                </voice>\n            </speak>\n        "

  /** The characters matched by the pattern `[<>&"']`. */
  predicate IsSpecial(c: char) {
    c == '<' || c == '>' || c == '&' || c == '"' || c == '\''
  }

  /** The predefined XML entity of a special character. */
  function Entity(c: char): (r: string)
    requires IsSpecial(c)
    ensures |r| >= 4 && r[0] == '&' && r[|r| - 1] == ';'
  {
    match c
    case '<' => "&lt;"
    case '>' => "&gt;"
    case '&' => "&amp;"
    case '"' => "&quot;"
    case '\'' => "&apos;"
  }

  /** The entity `s` starts with, as the character it stands for. */
  function EntityPrefix(s: string): (r: Option<char>)
    ensures r.Some? ==> IsSpecial(r.value) && StartsWith(s, Entity(r.value))
    ensures r.None? ==> forall c :: IsSpecial(c) ==> !StartsWith(s, Entity(c))
  {
    if StartsWith(s, "&lt;") then Some('<')
    else if StartsWith(s, "&gt;") then Some('>')
    else if StartsWith(s, "&amp;") then Some('&')
    else if StartsWith(s, "&quot;") then Some('"')
    else if StartsWith(s, "&apos;") then Some('\'')
    else None
  }

  function EscapeChar(c: char): string {
    if IsSpecial(c) then Entity(c) else [c]
  }

  /** The replace callback of `generateSSML`, applied to every character. */
  function Escape(text: string): string {
    if text == [] then [] else EscapeChar(text[0]) + Escape(text[1..])
  }

  /** Decodes the five predefined entities and keeps every other character. */
  function Unescape(e: string): string
    decreases |e|
  {
    if e == [] then []
    else match EntityPrefix(e)
      case Some(c) => [c] + Unescape(e[|Entity(c)|..])
      case None => [e[0]] + Unescape(e[1..])
  }

  /**
   * A string that is safe as XML character data: no raw `<`, `>`, `"` or `'`,
   * and every `&` begins one of the five predefined entities.
   */
  predicate WellEscaped(e: string) {
    && (forall i :: 0 <= i < |e| ==> e[i] != '<' && e[i] != '>' && e[i] != '"' && e[i] != '\'')
    && (forall i :: 0 <= i < |e| && e[i] == '&' ==> EntityPrefix(e[i..]).Some?)
  }

  /** No character of `text` is one of the five special characters. */
  predicate Plain(text: string) {
    forall i :: 0 <= i < |text| ==> !IsSpecial(text[i])
  }

  lemma StartsWithAppend(a: string, b: string, p: string)
    requires StartsWith(a, p)
    ensures StartsWith(a + b, p)
  {
    assert (a + b)[..|p|] == a[..|p|];
  }

  lemma EntityPrefixOfEntity(c: char, rest: string)
    requires IsSpecial(c)
    ensures EntityPrefix(Entity(c) + rest) == Some(c)
  {
    var s := Entity(c) + rest;
    StartsWithAppend(Entity(c), rest, Entity(c));
    assert s[..|Entity(c)|] == Entity(c);
  }

  lemma EntityPrefixOfPlain(c: char, rest: string)
    requires !IsSpecial(c)
    ensures EntityPrefix([c] + rest) == None
  {
    var s := [c] + rest;
    assert s[0] == c;
  }

  /** Escaping works character by character, so it distributes over concatenation. */
  lemma {:induction false} EscapeAppend(a: string, b: string)
    ensures Escape(a + b) == Escape(a) + Escape(b)
    decreases |a|
  {
    if a == [] {
      assert a + b == b;
    } else {
      assert (a + b)[1..] == a[1..] + b;
      EscapeAppend(a[1..], b);
    }
  }

  /** Text without special characters is left exactly as it was. */
  lemma {:induction false} EscapePlain(text: string)
    requires Plain(text)
    ensures Escape(text) == text
    decreases |text|
  {
    if text != [] {
      EscapePlain(text[1..]);
      assert text == [text[0]] + text[1..];
    }
  }

  lemma WellEscapedAppend(a: string, b: string)
    requires WellEscaped(a) && WellEscaped(b)
    ensures WellEscaped(a + b)
  {
    var s := a + b;
    forall i | 0 <= i < |s| && s[i] == '&'
      ensures EntityPrefix(s[i..]).Some?
    {
      if i < |a| {
        var c := EntityPrefix(a[i..]).value;
        StartsWithAppend(a[i..], b, Entity(c));
        assert s[i..] == a[i..] + b;
      } else {
        assert s[i..] == b[i - |a|..];
        assert b[i - |a|] == '&';
      }
    }
  }

  lemma EscapeCharWellEscaped(c: char)
    ensures WellEscaped(EscapeChar(c))
  {
    var e := EscapeChar(c);
    if IsSpecial(c) {
      EntityPrefixOfEntity(c, []);
      assert Entity(c) + [] == Entity(c);
      assert e[0..] == e;
      forall i | 0 <= i < |e|
        ensures e[i] != '<' && e[i] != '>' && e[i] != '"' && e[i] != '\'' && (e[i] == '&' ==> i == 0)
      {
      }
    }
  }

  /**
   * The escaped text has no raw `<`, `>`, `"` or `'`, and every `&` in it
   * begins one of `&lt;`, `&gt;`, `&amp;`, `&quot;`, `&apos;`.
   */
  lemma {:induction false} EscapeIsWellEscaped(text: string)
    ensures WellEscaped(Escape(text))
    decreases |text|
  {
    if text != [] {
      EscapeCharWellEscaped(text[0]);
      EscapeIsWellEscaped(text[1..]);
      WellEscapedAppend(EscapeChar(text[0]), Escape(text[1..]));
    }
  }

  /** Decoding the entities gives back the original text. */
  lemma {:induction false} UnescapeEscape(text: string)
    ensures Unescape(Escape(text)) == text
    decreases |text|
  {
    if text != [] {
      var c := text[0];
      var rest := Escape(text[1..]);
      UnescapeEscape(text[1..]);
      if IsSpecial(c) {
        EntityPrefixOfEntity(c, rest);
        assert (Entity(c) + rest)[|Entity(c)|..] == rest;
      } else {
        EntityPrefixOfPlain(c, rest);
        assert ([c] + rest)[1..] == rest;
      }
      assert text == [c] + text[1..];
    }
  }

  lemma WellEscapedSuffix(e: string, k: nat)
    requires WellEscaped(e) && k <= |e|
    ensures WellEscaped(e[k..])
  {
    var t := e[k..];
    forall i | 0 <= i < |t| && t[i] == '&'
      ensures EntityPrefix(t[i..]).Some?
    {
      assert t[i..] == e[k + i..];
    }
  }

  /**
   * Every well-escaped string is the escape of exactly one text: escaping is a
   * bijection between texts and well-escaped strings.
   */
  lemma {:induction false} EscapeUnescape(e: string)
    requires WellEscaped(e)
    ensures Escape(Unescape(e)) == e
    decreases |e|
  {
    if e != [] {
      match EntityPrefix(e)
      case Some(c) =>
        var k := |Entity(c)|;
        WellEscapedSuffix(e, k);
        EscapeUnescape(e[k..]);
        assert ([c] + Unescape(e[k..]))[1..] == Unescape(e[k..]);
        assert e == e[..k] + e[k..];
      case None =>
        assert e[0..] == e;
        assert !IsSpecial(e[0]);
        WellEscapedSuffix(e, 1);
        EscapeUnescape(e[1..]);
        assert ([e[0]] + Unescape(e[1..]))[1..] == Unescape(e[1..]);
        assert e == [e[0]] + e[1..];
    }
  }

  /**
   * `voiceName || speechConfig.speechSynthesisVoiceName || 'en-US-JennyNeural'`,
   * where `configVoice` is absent when there is no configuration.
   */
  function SelectVoice(voiceName: Option<string>, configVoice: Option<string>): (v: string)
    ensures v != ""
    ensures Truthy(voiceName) ==> v == voiceName.value
    ensures !Truthy(voiceName) && Truthy(configVoice) ==> v == configVoice.value
    ensures !Truthy(voiceName) && !Truthy(configVoice) ==> v == DefaultVoice
  {
    if Truthy(voiceName) then voiceName.value
    else if Truthy(configVoice) then configVoice.value
    else DefaultVoice
  }

  /** The longest suffix of `b` that holds no `>`. */
  function GtFreeSuffix(b: string): (r: string)
    ensures |r| <= |b| && r == b[|b| - |r|..]
    ensures forall i :: 0 <= i < |r| ==> r[i] != '>'
    ensures |r| < |b| ==> b[|b| - |r| - 1] == '>'
  {
    if b == [] || b[|b| - 1] == '>' then []
    else GtFreeSuffix(b[..|b| - 1]) + [b[|b| - 1]]
  }

  lemma {:induction false} GtFreeSuffixAfterTag(x: string, y: string)
    requires x != [] && x[|x| - 1] == '>'
    requires forall i :: 0 <= i < |y| ==> y[i] != '>'
    ensures GtFreeSuffix(x + y) == y
    decreases |y|
  {
    if y == [] {
      assert x + y == x;
    } else {
      var y' := y[..|y| - 1];
      assert (x + y)[..|x + y| - 1] == x + y';
      GtFreeSuffixAfterTag(x, y');
      assert y == y' + [y[|y| - 1]];
    }
  }

  /** Where the pieces of an assembled document sit. */
  lemma Layout(head: string, v: string, mid: string, t: string, tail: string)
    ensures var d := head + v + mid + t + tail;
      && d[..|head|] == head
      && d[|head|..] == v + mid + t + tail
      && d[..|d| - |tail|] == head + v + mid + t
      && d[|d| - |tail|..] == tail
  {
  }

  /** The content of the `prosody` element of a document laid out like the template. */
  function ProsodyContent(ssml: string): Option<string> {
    if EndsWith(ssml, SpeakClose) then Some(GtFreeSuffix(ssml[..|ssml| - |SpeakClose|]))
    else None
  }

  /** Reads the spoken text back out of an SSML document. */
  function SpokenText(ssml: string): Option<string> {
    match ProsodyContent(ssml)
    case Some(content) => Some(Unescape(content))
    case None => None
  }

  /**
   * The document `generateSSML` returns. The voice goes verbatim, unescaped,
   * into the `name` attribute, and the escaped text is the whole content of
   * the `prosody` element.
   */
  function GenerateSsml(text: string, voiceName: Option<string>, configVoice: Option<string>): (ssml: string)
    ensures StartsWith(ssml, SpeakOpen)
    ensures var v := SelectVoice(voiceName, configVoice);
      ssml[|SpeakOpen|..] == v + ProsodyOpen + Escape(text) + SpeakClose
    ensures ProsodyContent(ssml) == Some(Escape(text))
  {
    var v := SelectVoice(voiceName, configVoice);
    var cleanText := Escape(text);
    Layout(SpeakOpen, v, ProsodyOpen, cleanText, SpeakClose);
    EscapeIsWellEscaped(text);
    assert (SpeakOpen + v + ProsodyOpen)[|SpeakOpen + v + ProsodyOpen| - 1] == '>';
    GtFreeSuffixAfterTag(SpeakOpen + v + ProsodyOpen, cleanText);
    SpeakOpen + v + ProsodyOpen + cleanText + SpeakClose
  }

  /** Whatever the voice, the text can be read back from the generated document. */
  lemma SsmlRoundTrip(text: string, voiceName: Option<string>, configVoice: Option<string>)
    ensures SpokenText(GenerateSsml(text, voiceName, configVoice)) == Some(text)
  {
    UnescapeEscape(text);
  }
}

=== FILE: wrappers.dfy ===
/** Failure-carrying datatypes shared by every module of the model. */
module Wrappers {

  /** A value that may be absent: JavaScript's `null`/`undefined` versus a value. */
  datatype Option<+T> = None | Some(value: T)

  /** Either a value or an error. */
  datatype Result<+R, +E> = Success(value: R) | Failure(error: E)

  /** A step that either passes or fails with an error, carrying no value. */
  datatype Outcome<+E> = Pass | Fail(error: E)
}
